=== FILE: README.md ===
# Universal AI widget: the client/server chat contract in Dafny

This project models the two halves of the "ask questions about this webpage"
widget and proves properties of them:

- **Gateway** (`gateway.dfy`) is the `POST` handler of the chat route and
  its `OPTIONS` preflight. It checks the API-key header, parses and
  destructures the JSON body, requires a truthy `question` and `context`,
  and builds the prompt from the question and the first 8000 characters of
  the context. It then calls the provider and turns every outcome into a JSON
  `{ answer }` with status 200, 400, 401 or 500 and the CORS headers. The
  handler is modelled as a total function of three inputs: the header, the
  parsed body (or the parse error) and the provider's outcome.
- **Widget** (`widget.dfy`) is the browser script's session. It covers:
  - the conversation `chatHistory`, the key `userApiKey` and its storage slot;
  - `handleSend` as one step (trim the question, refuse a blank question or
    a missing key, send the key, the question, the cleaned page text and the
    role-mapped history, and append the question/answer pair only on a 200,
    or the question alone when that reply's body is `null`);
  - the save-key handler;
  - the string part of `getPageContext`: whitespace runs become one space,
    the ends are trimmed, and the first 12000 characters are kept.
- **Text** (`text.dfy`) holds the JavaScript string built-ins both halves use:
  - the `\s` whitespace class;
  - `trim` (as `TrimStart` then `TrimEnd`);
  - the whitespace-run collapse;
  - `slice(0, n)` / `substring(0, n)`.
- **Protocol** (`protocol.dfy`) joins the two halves. The widget's request
  goes through `fetch` and is read back by the route's `req.json()`. `fetch`
  strips HTTP whitespace from the ends of the key header and refuses a key
  that is not a valid header value. The route's reply is read back by the
  widget. End-to-end properties are stated over that composition.
- **Wrappers** (`wrappers.dfy`) holds the `Option` type.

Two facts about the route that a reader might not expect:

- `context` is required. The route answers 400 when `question` or `context`
  is falsy, so an empty page context is refused (`Gateway.Status400Meaning`,
  `Protocol.BlankPageRejected`).
- The body's `history` is never read (`Gateway.OtherFieldsIgnored`,
  `Protocol.HistoryNotConsulted`).

## Model

| member | source | states |
|---|---|---|
| Gateway.Post | src/app/api/chat/route.ts:4-73 | Every request is answered, none throws past the handler. Every response carries the three CORS headers and an answer, and its status is one of 200, 400, 401, 500. A blank key gives exactly the 401 "please enter your API key" response. |
| Gateway.Options | src/app/api/chat/route.ts:76-84 | The preflight answers 200 with no body. |
| Gateway.CorsEverywhere | src/app/api/chat/route.ts:6-10 | `POST` and `OPTIONS` carry the same header list. Its names and values are exactly Allow-Origin `*`, Allow-Methods `POST, OPTIONS` and Allow-Headers `Content-Type, x-gemini-api-key`. |
| Gateway.BlankKeyWins | src/app/api/chat/route.ts:14-22 | The key check comes before parsing. The route stops with the 401 key prompt exactly when the key is blank, whatever the body, even an unparsable one. |
| Gateway.BlankKeyIsTrimEmpty | src/app/api/chat/route.ts:17 | The blank-key test (header absent, or `userApiKey.trim() === ""`) holds exactly when the header is absent or all whitespace. |
| Gateway.Status400Meaning | src/app/api/chat/route.ts:29-37 | Status 400 is given if and only if the key is usable and the parsed body's `question` or `context` is falsy; the answer is then the "missing question or page context" message. |
| Gateway.Status200Meaning | src/app/api/chat/route.ts:50-55 | Status 200 is given if and only if the provider was called and produced text; the answer is that text unchanged. |
| Gateway.Status401And500Meaning | src/app/api/chat/route.ts:57-72 | 401 is given if and only if the key is blank or a thrown error mentions `API_KEY_INVALID` or has status 400. 500 is given if and only if some other error was thrown. |
| Gateway.Classify | src/app/api/chat/route.ts:57-72 | An error becomes 401 "invalid key" exactly when it rejects the key. Otherwise it becomes 500 "System Error: " followed by its message, or by "Unknown error" when the message is absent or empty. |
| Gateway.ProviderDecides | src/app/api/chat/route.ts:50-72 | Once the provider is called, its outcome alone decides the response: its text with 200, or the classified error. |
| Gateway.NoCallNoInfluence | src/app/api/chat/route.ts:17-37 | When the route answers or throws before the provider call, the provider's outcome cannot change the response. |
| Gateway.OtherFieldsIgnored | src/app/api/chat/route.ts:29-30 | Only `question` and `context` are read from the body. Changing any other field, `history` included, changes neither the prompt nor the response. |
| Gateway.ContextBeyondLimitIgnored | src/app/api/chat/route.ts:45 | Two string contexts that agree on their first 8000 characters give the same prompt and the same response. |
| Gateway.EmptyContextRejected | src/app/api/chat/route.ts:32-37 | An empty string context is answered 400 whatever the question and the provider. |
| Gateway.PromptCarriesQuestionAndContext | src/app/api/chat/route.ts:39-48 | With a usable key and non-empty string fields, the provider is called with the question verbatim and exactly the first 8000 characters of the context. |
| Gateway.PrintableMeaning | src/app/api/chat/route.ts:40-48 | Behind a usable key and a truthy question and context, the provider is called exactly when the question prints, the context has a `slice` method, and the kept context prints. |
| Gateway.PrintFailure | src/app/api/chat/route.ts:40-48 | A question, or the kept part of an array context, that holds an object with its own `toString` property at any depth makes the template literal throw. The route then answers 500 "System Error: Cannot convert object to primitive value", whatever the provider. |
| Gateway.PromptTextLayout | src/app/api/chat/route.ts:40-48 | The prompt text holds the question and the kept context verbatim at fixed offsets. Its length is the two pieces plus a constant. |
| Widget.Init | public/ai-widget.js:168 | A new session has an empty conversation, the button enabled, and the stored key as the key, or the empty string when nothing is stored. |
| Widget.Normalise | public/ai-widget.js:202 | The result is a prefix of the trimmed, collapsed text. It is all of that text when the text fits, and exactly its first `limit` characters otherwise. It starts with a visible character, has no two adjacent whitespace characters, and its only whitespace is U+0020. |
| Widget.PageContext | public/ai-widget.js:199-203 | The page context is at most 12000 characters. |
| Widget.PageContextEmptyIff | public/ai-widget.js:202 | The page context is empty exactly when the page text has no visible character. |
| Widget.TruncationCanEndOnSpace | public/ai-widget.js:202 | The cut comes after the trim, so the context can end in a space: "ab␠␠c" cut to 3 gives "ab␠". |
| Widget.CollapseExample | public/ai-widget.js:202 | A run of two spaces between visible characters becomes one space. |
| Widget.WireHistory | public/ai-widget.js:224-227 | The wire history has one entry per turn, in order. Its role is "user" exactly for user turns and "model" exactly for bot turns, and its single part holds the turn's content. |
| Widget.WireRoundTrip | public/ai-widget.js:224-227 | The role mapping loses nothing: the conversation can be read back from its wire form. |
| Widget.WireHistoryAppend | public/ai-widget.js:224-227 | The wire form of a concatenation is the concatenation of the wire forms. |
| Widget.Send | public/ai-widget.js:206-257 | A blank question changes and sends nothing. With no key, nothing is sent and only the settings panel is shown. Otherwise a request is sent, carrying the key, the trimmed question, the wire form of the conversation so far and the page context. After a send the input is cleared, the button re-enabled, and the settings panel left as it was. On a 200 reply the trimmed question and the answer are appended. If that reply's body is JSON `null`, only the question is appended, because reading `data.answer` throws after the first push. Any other status or a thrown fetch leaves the conversation unchanged. The key and its storage slot are never touched. |
| Widget.SaveKeyClicked | public/ai-widget.js:274-282 | A save whose key field trims to nothing changes nothing. Otherwise the trimmed key becomes the key and is written to storage, and the panel is hidden. The conversation, the draft and the button are never touched. |
| Widget.SavedKeyIsUsed | public/ai-widget.js:274-282 | A saved key is non-empty and already trimmed. The next non-blank question is sent with exactly that key. |
| Widget.ApplyKeepsPaired | public/ai-widget.js:243-249 | From a conversation that alternates user, bot, user, … with even length, an event keeps that shape if and only if it is not a sent question whose 200 reply has a `null` body. |
| Widget.NullReplyLeavesLoneQuestion | public/ai-widget.js:239-253 | A sent question whose 200 reply has a `null` body adds only its user turn. The conversation is then not paired, and the next request's wire history ends with that question as "user". |
| Widget.RunKeepsPaired | public/ai-widget.js:243-249 | Every sequence of events with no `null`-bodied 200 reply keeps the conversation paired. |
| Widget.RunHistoryGrows | public/ai-widget.js:243-249 | The conversation is append-only: after any events, the earlier conversation is a prefix of the later one. |
| Widget.AnsweredExchange | public/ai-widget.js:206-249 | Typing a question and getting status 200 appends exactly the trimmed question and the answer, and keeps the key. |
| Widget.AnsweredQuestionsAppendPairs | public/ai-widget.js:246-247 | N answered questions append exactly 2N turns: each trimmed question followed by its answer, in send order. |
| Widget.FirstExchangeRecorded | public/ai-widget.js:246-247 | After one answered question in a fresh conversation, the conversation is exactly that question and its answer. |
| Widget.SecondRequestCarriesFirstExchange | public/ai-widget.js:224-235 | The second request of a fresh conversation carries a wire history of length 2 holding exactly the first question and its answer. It never contains the question being asked. |
| Text.Trim | public/ai-widget.js:207 | `trim` gives the slice of the string between its leading and trailing whitespace. The result is empty or starts and ends with a visible character. |
| Text.TrimOfUnique | public/ai-widget.js:207 | The trimmed form of a string is unique. |
| Text.TrimIdempotent | public/ai-widget.js:275 | Trimming twice is trimming once. |
| Text.TrimEmptyIffAllSpace | src/app/api/chat/route.ts:17 | A string trims to "" exactly when it is all whitespace. |
| Text.TrimOfTrimmed | public/ai-widget.js:202 | A string with visible characters at both ends is its own trim. |
| Text.Prefix | src/app/api/chat/route.ts:45 | `slice(0, n)` gives the first n characters, or the whole string when it is shorter. |
| Text.PrefixOfPrefix | src/app/api/chat/route.ts:45 | Cutting to a wider and then a narrower limit is cutting to the narrower. |
| Text.Collapse | public/ai-widget.js:202 | The result is no longer than the input and is empty exactly when the input is. It starts with a space exactly when the input starts with whitespace. It has no two adjacent whitespace characters and its whitespace is only U+0020. |
| Text.CollapseOfRun | public/ai-widget.js:202 | A non-empty run of whitespace alone collapses to one plain space. |
| Text.CollapseAppend | public/ai-widget.js:202 | When the first part is empty or ends with a visible character, collapsing the concatenation collapses each part on its own. With `CollapseInnerRun` (whose first part may be empty, covering leading whitespace) and `CollapseFixedIff` this fixes the collapse of every string. |
| Text.CollapseInnerRun | public/ai-widget.js:202 | A whitespace run between visible characters becomes exactly one space, and the text on either side is collapsed independently. |
| Text.CollapseKeepsVisible | public/ai-widget.js:202 | Collapsing keeps every visible character, in order. |
| Text.CollapseFixedIff | public/ai-widget.js:202 | The collapse leaves a string unchanged if and only if its spaces are already plain and isolated. |
| Text.CollapseIdempotent | public/ai-widget.js:202 | Collapsing twice is collapsing once. |
| Text.AllSpaceIffInvisible | public/ai-widget.js:202 | A string is all whitespace exactly when it has no visible character. |
| Protocol.Deliver | public/ai-widget.js:229-237 | The route receives a key header that is blank exactly when the widget's key is all whitespace, since `fetch` strips only HTTP whitespace from its ends. It receives an object body whose `question` and `context` are the widget's, unchanged. |
| Protocol.StripKeepsBlank | public/ai-widget.js:231 | Stripping tab, line feed, carriage return and space from the ends of a header value leaves it all whitespace exactly when it was. |
| Protocol.TrimmedKeyArrivesUnchanged | public/ai-widget.js:231 | A trimmed key that `fetch` accepts, as the save handler stores it, reaches the route exactly as the widget holds it. |
| Protocol.UntransmittableKeyKeepsHistory | public/ai-widget.js:229-253 | A key `fetch` refuses as a header value makes the send throw before it reaches the route. A refused key has a character above U+00FF, or a NUL, line feed or carriage return inside it. Nothing is then added to the conversation. |
| Protocol.RequestIndependentOfOutcome | public/ai-widget.js:229-237 | The request is built before the reply arrives, so it does not depend on the reply. |
| Protocol.DeliveredRequestReachesProvider | public/ai-widget.js:229-237 | With a non-blank question, a key with a visible character that `fetch` accepts, and a page with visible text, the request reaches the route and the route calls the provider. The call carries the trimmed question and the page text cleaned as `getPageContext` does, cut to 8000 characters. |
| Protocol.BlankPageRejected | src/app/api/chat/route.ts:32-37 | A page without visible text yields an empty context. With a key `fetch` accepts, the route answers it with 400 and the widget receives that reply. |
| Protocol.WhitespaceKeyRejected | src/app/api/chat/route.ts:17-22 | The widget only checks that the key is non-empty. A whitespace-only key that `fetch` accepts (U+00A0, say) passes it, the route answers 401, and the widget receives that reply. |
| Protocol.HistoryNotConsulted | src/app/api/chat/route.ts:30 | The history the widget sends never changes the route's response. |
| Protocol.AskRecordsProviderText | public/ai-widget.js:243-249 | When the provider answers and `fetch` accepts the key, a send adds exactly the trimmed question and the provider's text to the conversation. |
| Protocol.AskKeepsPaired | src/app/api/chat/route.ts:12-72 | The route always answers with an object, so a send against it keeps a paired conversation paired, whatever the question, key, page and provider outcome. |
| Protocol.AskFailureKeepsHistory | public/ai-widget.js:243-253 | When the provider fails, a send adds nothing to the conversation, whatever the question, key and page. |

## Left out

- Rendering and the DOM are not modelled: message bubbles, the typewriter
  fade, `marked`, the "Thinking..." placeholder, the launcher and
  settings-toggle handlers, and the removal of scripts, styles and widget
  nodes from the cloned body in `getPageContext`. The page text is an input
  string.
- The texts shown for a failed send are not modelled: "⚠️ …" with `data.answer`
  or "Error connecting.", and "❌ Connection Error. Cannot reach server.". Only
  their effect on the session (none) is.
- `res.json()`, `localStorage`, the Gemini SDK and `response.text()` are
  outcome inputs, not calls. Of `fetch`, only its handling of the key header
  is modelled. Any exception from
  `res.json()` is folded into `Threw`. The SDK constructor and
  `getGenerativeModel` are assumed not to throw.
- JavaScript counts string length in UTF-16 code units. Here a string is a
  sequence of Unicode scalar values, so `slice`/`substring` limits count
  characters.
- JSON numbers are integers, so `NaN`, fractions and `-0` are not modelled.
- Gateway.Display: an integer is printed with all its digits. JavaScript
  rounds a JSON integer beyond 2^53 to the nearest double when it parses it,
  and prints magnitudes of 10^21 and more in exponential notation. Neither is
  modelled.
- Error messages the JavaScript engine produces, such as destructuring a null
  body or `context.slice is not a function`, follow V8's wording. A thrown
  value that is not an `Error` is modelled by its `message` and `status`
  fields only.
- `console.error` logging is left out.
- Two sends overlapping in time are not modelled: `handleSend` is one atomic
  step. The button is disabled while a request is in flight, and the model
  only records that it is enabled again afterwards.
- Widget.Send: `data.answer` is modelled as a string; a reply whose body is
  not `null` but whose `answer` is missing or not a string is not
  distinguished. A `null` body is modelled (`RepliedNull`).
- Widget.RunKeepsPaired: holds only for runs without a 200 reply whose body is
  `null`. On such a reply `handleSend` pushes the user turn and then throws
  reading `data.answer`, so the pair is left half-written
  (`Widget.NullReplyLeavesLoneQuestion`). The route never sends such a body,
  so every send against it keeps the conversation paired
  (`Protocol.AskKeepsPaired`).
- Protocol.Fetch: once `fetch` accepts the key header, the request and the
  reply are assumed to get through unchanged. `Protocol.Ask` has no network
  failure input; only `Widget.Send` takes a thrown `fetch` as an outcome. The
  HTTP server in front of the route is assumed to accept every header value
  `fetch` sends. Node's HTTP parser, for one, refuses control characters other
  than tab (U+000B, say), which `fetch` lets through; such a key would get the
  server's error rather than the route's response.

=== FILE: gateway.dfy ===
/** The chat endpoint `src/app/api/chat/route.ts`: the `POST` handler as a total
    function from (API-key header, parsed body, provider outcome) to a JSON
    response, and the `OPTIONS` preflight answer. */
module Gateway {
  import opened Text
  import opened Wrappers

  /** A JSON value as the route sees it after `req.json()`, plus `Undefined`
      for a property the object does not have. Numbers are integers only. */
  datatype Value =
    | Undefined
    | Null
    | Bool(b: bool)
    | Num(n: int)
    | Str(s: string)
    | Arr(items: seq<Value>)
    | Obj(fields: map<string, Value>)

  /** How `req.json()` ended: a parse error (with the message it threw) or a value. */
  datatype Body = Malformed(message: string) | Parsed(json: Value)

  /** A thrown JavaScript error: `error.message` and `error.status` (either may be absent). */
  datatype JsError = JsError(message: Option<string>, status: Option<int>)

  /** The prompt's two interpolated pieces: the printed question and the
      printed first 8000 entries of the context. */
  datatype Prompt = Prompt(question: string, context: string)

  /** What `model.generateContent(prompt)` and `response.text()` produced. */
  datatype ProviderOutcome = Generated(text: string) | Failed(error: JsError)

  /** The `answer` field of a JSON response, one constructor per message the
      route can send. */
  datatype Answer =
    | AskForKey              // blank key header
    | MissingInput           // falsy question or context
    | KeyInvalid             // provider rejected the key
    | SystemError(detail: string)
    | ModelText(text: string)

  /** The three CORS headers the route attaches. */
  datatype CorsHeader = AllowOrigin | AllowMethods | AllowHeaders

  /** A `NextResponse`: status, the `answer` of a JSON body (absent for the
      null body of the preflight) and the headers. */
  datatype Response = Response(status: int, answer: Option<Answer>, headers: seq<CorsHeader>)

  /** The route's progress up to the provider call: it has already returned,
      it has thrown, or it is about to call the provider. */
  datatype Step = Early(status: int, answer: Answer) | Raise(error: JsError) | Call(prompt: Prompt)

  const CorsHeaders: seq<CorsHeader> := [AllowOrigin, AllowMethods, AllowHeaders]

  function HeaderName(h: CorsHeader): string {
    match h
    case AllowOrigin => "Access-Control-Allow-Origin"
    case AllowMethods => "Access-Control-Allow-Methods"
    case AllowHeaders => "Access-Control-Allow-Headers"
  }

  function HeaderValue(h: CorsHeader): string {
    match h
    case AllowOrigin => "*"
    case AllowMethods => "POST, OPTIONS"
    case AllowHeaders => "Content-Type, x-gemini-api-key"
  }

  /** The text the client receives as `answer`. */
  function AnswerText(a: Answer): string {
    match a
    case AskForKey => AskForKeyText()
    case MissingInput => MissingInputText()
    case KeyInvalid => KeyInvalidText()
    case SystemError(detail) => SystemErrorPrefix() + detail
    case ModelText(text) => text
  }

  function AskForKeyText(): string {
    "\U{26A0}\U{FE0F} Please enter your API Key in the settings first."
  }

  function MissingInputText(): string {
    "\U{26A0}\U{FE0F} Error: Missing question or page context."
  }

  function KeyInvalidText(): string {
    "\U{274C} Error: Your API Key is invalid. Please check it."
  }

  function SystemErrorPrefix(): string {
    "\U{274C} System Error: "
  }

  /** The route keeps at most this many characters of the page context. */
  const ContextLimit: nat := 8000

  function PromptHead(): string {
    "\n      You are a helpful assistant reading a webpage.\n      USER QUESTION: \""
  }

  function PromptMid(): string {
    "\"\n      WEBSITE CONTEXT:\n      \"\"\"\n      "
  }

  function PromptTail(): string {
    "\n      \"\"\"\n      Answer strictly based on the context.\n    "
  }

  /** The template literal the provider receives. */
  function PromptText(p: Prompt): string {
    PromptHead() + p.question + PromptMid() + p.context + PromptTail()
  }

  /** JavaScript truthiness of a JSON value (`!v` is its negation). */
  predicate Truthy(v: Value) {
    match v
    case Undefined => false
    case Null => false
    case Bool(b) => b
    case Num(n) => n != 0
    case Str(s) => s != []
    case Arr(_) => true
    case Obj(_) => true
  }

  /** The `x-gemini-api-key` header is absent or holds only whitespace.
      `BlankKeyIsTrimEmpty` shows this is the route's test that the header is
      missing, empty, or trims to the empty string. */
  predicate BlankKey(key: Option<string>) {
    key.None? || AllSpace(key.value)
  }

  /** Whether `needle` occurs in `haystack` as a contiguous piece (the
      string method `includes`). */
  predicate Contains(haystack: string, needle: string) {
    if |haystack| < |needle| then false
    else haystack[..|needle|] == needle || Contains(haystack[1..], needle)
  }

  /** Decimal digits of a natural number. */
  function Digits(n: nat): (r: string)
    ensures r != []
    ensures forall k | 0 <= k < |r| :: '0' <= r[k] <= '9'
  {
    if n < 10 then [(n + '0' as int) as char]
    else Digits(n / 10) + [((n % 10) + '0' as int) as char]
  }

  function Join(parts: seq<string>, sep: string): string {
    if parts == [] then []
    else if |parts| == 1 then parts[0]
    else parts[0] + sep + Join(parts[1..], sep)
  }

  /** `String(v)`, the text a template literal interpolates for `${v}`, for a
      value that is not `Unprintable`. An object prints as "[object Object]";
      an array prints its elements joined with "," (null and undefined as ""). */
  function Display(v: Value): string
    decreases v
  {
    match v
    case Undefined => "undefined"
    case Null => "null"
    case Bool(b) => if b then "true" else "false"
    case Num(n) => if n < 0 then "-" + Digits(-n) else Digits(n)
    case Str(s) => s
    case Arr(items) =>
      Join(seq(|items|, k requires 0 <= k < |items| =>
        if items[k].Undefined? || items[k].Null? then "" else Display(items[k])), ",")
    case Obj(_) => "[object Object]"
  }

  /** A property read by the destructuring of the body into `question` and
      `context`: a missing property reads as undefined. */
  function Field(body: Value, name: string): Value {
    match body
    case Obj(fields) => if name in fields then fields[name] else Undefined
    case _ => Undefined
  }

  /** Cutting the context to its first 8000 entries: strings and arrays have
      a `slice` method; for any other value the call throws a TypeError. */
  function SliceContext(context: Value): Option<Value> {
    match context
    case Str(s) => Some(Str(Prefix(s, ContextLimit)))
    case Arr(items) => Some(Arr(Prefix(items, ContextLimit)))
    case _ => None
  }

  /** The TypeError of destructuring a null (or undefined) body. */
  function DestructureError(json: Value): JsError {
    var shown := if json.Null? then "null" else "undefined";
    JsError(Some("Cannot destructure property 'question' of 'body' as it is " + shown + "."), None)
  }

  /** The TypeError of calling `slice` on a value that has no such method. */
  function SliceError(): JsError {
    JsError(Some("context.slice is not a function"), None)
  }

  /** Whether `String(v)` throws. A parsed object with its own `toString`
      property throws: that property hides the inherited method, it is never
      callable, and the inherited `valueOf` gives back the object itself, so
      no primitive is found. An array prints its elements, so it throws when
      one of them does, at any depth. Every other value prints. */
  predicate Unprintable(v: Value)
    decreases v
  {
    match v
    case Obj(fields) => "toString" in fields
    case Arr(items) => exists k | 0 <= k < |items| :: Unprintable(items[k])
    case _ => false
  }

  /** The TypeError of printing such a value. */
  function PrintError(): JsError {
    JsError(Some(PrintErrorText()), None)
  }

  function PrintErrorText(): string {
    "Cannot convert object to primitive value"
  }

  /** The printing TypeError's message has no capital A. */
  lemma PrintErrorTextHasNoA()
    ensures forall i | 0 <= i < |PrintErrorText()| :: PrintErrorText()[i] != 'A'
  {
  }

  /** The route's checks in source order, up to the provider call. The
      template literal prints the question before it evaluates the context's
      `slice`, and prints the kept context last. */
  function Prepare(key: Option<string>, body: Body): Step {
    if BlankKey(key) then Early(401, AskForKey)
    else match body
      case Malformed(message) => Raise(JsError(Some(message), None))
      case Parsed(json) =>
        if json.Null? || json.Undefined? then Raise(DestructureError(json))
        else
          var question := Field(json, "question");
          var context := Field(json, "context");
          if !Truthy(question) || !Truthy(context) then Early(400, MissingInput)
          else if Unprintable(question) then Raise(PrintError())
          else match SliceContext(context)
            case None => Raise(SliceError())
            case Some(kept) =>
              if Unprintable(kept) then Raise(PrintError())
              else Call(Prompt(Display(question), Display(kept)))
  }

  /** The `if` inside the `catch`: a message containing "API_KEY_INVALID" or
      a status of exactly 400 means the key was rejected. */
  predicate RejectsKey(e: JsError) {
    (e.message.Some? && Contains(e.message.value, "API_KEY_INVALID")) || e.status == Some(400)
  }

  /** The `catch` block: every thrown error becomes a 401 or a 500 response. */
  function Classify(e: JsError): (r: Response)
    ensures r.headers == CorsHeaders && r.answer.Some?
    ensures r.status == 401 <==> RejectsKey(e)
    ensures r.status == 401 ==> r.answer == Some(KeyInvalid)
    ensures r.status != 401 ==> r.status == 500 && r.answer.value.SystemError? && r.answer.value.detail != []
    ensures r.status != 401 && e.message.Some? && e.message.value != [] ==>
              r.answer == Some(SystemError(e.message.value))
    ensures r.status != 401 && (e.message.None? || e.message.value == []) ==>
              r.answer == Some(SystemError("Unknown error"))
  {
    if RejectsKey(e) then Response(401, Some(KeyInvalid), CorsHeaders)
    else
      var detail := if e.message.Some? && e.message.value != [] then e.message.value else "Unknown error";
      Response(500, Some(SystemError(detail)), CorsHeaders)
  }

  /** The body parsed to an object-like value, but `question` or `context` is falsy. */
  predicate MissingField(body: Body) {
    && body.Parsed?
    && !body.json.Null? && !body.json.Undefined?
    && (!Truthy(Field(body.json, "question")) || !Truthy(Field(body.json, "context")))
  }

  /** The error that reaches the `catch` block, if the route throws. */
  function Thrown(key: Option<string>, body: Body, provider: ProviderOutcome): Option<JsError> {
    match Prepare(key, body)
    case Early(_, _) => None
    case Raise(e) => Some(e)
    case Call(_) => if provider.Failed? then Some(provider.error) else None
  }

  /** The `POST` handler. */
  function Post(key: Option<string>, body: Body, provider: ProviderOutcome): (r: Response)
    ensures r.headers == CorsHeaders
    ensures r.status in {200, 400, 401, 500}
    ensures r.answer.Some?
    ensures BlankKey(key) ==> r == Response(401, Some(AskForKey), CorsHeaders)
  {
    match Prepare(key, body)
    case Early(status, answer) => Response(status, Some(answer), CorsHeaders)
    case Raise(e) => Classify(e)
    case Call(_) =>
      match provider
      case Generated(text) => Response(200, Some(ModelText(text)), CorsHeaders)
      case Failed(e) => Classify(e)
  }

  /** The `OPTIONS` preflight handler. */
  function Options(): (r: Response)
    ensures r.status == 200 && r.answer.None?
  {
    Response(200, None, CorsHeaders)
  }

  /** The key check precedes parsing: with a blank key even an unparsable body
      or one without a question is answered 401, and nothing else is done. */
  lemma BlankKeyWins(key: Option<string>, body: Body)
    ensures Prepare(key, body) == Early(401, AskForKey) <==> BlankKey(key)
  {
  }

  /** `BlankKey` is the route's test: the header is missing, empty, or trims
      to the empty string. */
  lemma BlankKeyIsTrimEmpty(key: Option<string>)
    ensures BlankKey(key) <==> key.None? || key.value == [] || Trim(key.value) == []
  {
    if key.Some? {
      TrimEmptyIffAllSpace(key.value);
    }
  }

  /** Status 400 is given exactly for a missing field behind a usable key. */
  lemma Status400Meaning(key: Option<string>, body: Body, provider: ProviderOutcome)
    ensures var r := Post(key, body, provider);
      && (r.status == 400 <==> !BlankKey(key) && MissingField(body))
      && (r.status == 400 ==> r.answer == Some(MissingInput))
  {
  }

  /** Status 200 is given exactly when the provider was called and answered;
      the answer is its text, unchanged. */
  lemma Status200Meaning(key: Option<string>, body: Body, provider: ProviderOutcome)
    ensures var r := Post(key, body, provider);
      && (r.status == 200 <==> Prepare(key, body).Call? && provider.Generated?)
      && (r.status == 200 ==> r.answer == Some(ModelText(provider.text)))
  {
  }

  /** Status 401 is given exactly for a blank key or a thrown error that
      rejects the key; 500 for every other thrown error. */
  lemma Status401And500Meaning(key: Option<string>, body: Body, provider: ProviderOutcome)
    ensures var r := Post(key, body, provider);
      var e := Thrown(key, body, provider);
      && (r.status == 401 <==> BlankKey(key) || (e.Some? && RejectsKey(e.value)))
      && (r.status == 500 <==> e.Some? && !RejectsKey(e.value))
  {
    match Prepare(key, body)
    case Early(_, _) =>
    case Raise(err) =>
      assert Post(key, body, provider) == Classify(err);
    case Call(_) =>
  }

  /** Once the provider is called, its outcome alone decides the response:
      its text with 200, or the classified error. */
  lemma ProviderDecides(key: Option<string>, body: Body, provider: ProviderOutcome)
    requires Prepare(key, body).Call?
    ensures provider.Generated? ==> Post(key, body, provider) == Response(200, Some(ModelText(provider.text)), CorsHeaders)
    ensures provider.Failed? ==> Post(key, body, provider) == Classify(provider.error)
  {
  }

  /** When the route answers before the provider call, the provider's outcome
      cannot influence the response. */
  lemma NoCallNoInfluence(key: Option<string>, body: Body, p1: ProviderOutcome, p2: ProviderOutcome)
    requires !Prepare(key, body).Call?
    ensures Post(key, body, p1) == Post(key, body, p2)
  {
  }

  /** The response depends on the key and the body only through the route's
      progress up to the provider call. */
  lemma PostThroughPrepare(k1: Option<string>, b1: Body, k2: Option<string>, b2: Body, provider: ProviderOutcome)
    requires Prepare(k1, b1) == Prepare(k2, b2)
    ensures Post(k1, b1, provider) == Post(k2, b2, provider)
  {
  }

  /** Two object bodies with the same question, and contexts that are equally
      truthy and cut to the same value, bring the route to the same point. */
  lemma PrepareThroughSlice(key: Option<string>, f1: map<string, Value>, f2: map<string, Value>)
    requires Field(Obj(f1), "question") == Field(Obj(f2), "question")
    requires Truthy(Field(Obj(f1), "context")) == Truthy(Field(Obj(f2), "context"))
    requires SliceContext(Field(Obj(f1), "context")) == SliceContext(Field(Obj(f2), "context"))
    ensures Prepare(key, Parsed(Obj(f1))) == Prepare(key, Parsed(Obj(f2)))
  {
  }

  /** Only `question` and `context` are read: changing any other field of the
      body (for instance `history`) changes neither the prompt nor the response. */
  lemma OtherFieldsIgnored(key: Option<string>, fields: map<string, Value>, name: string, v: Value, provider: ProviderOutcome)
    requires name != "question" && name != "context"
    ensures Prepare(key, Parsed(Obj(fields[name := v]))) == Prepare(key, Parsed(Obj(fields)))
    ensures Post(key, Parsed(Obj(fields[name := v])), provider) == Post(key, Parsed(Obj(fields)), provider)
  {
    var fields' := fields[name := v];
    assert Field(Obj(fields'), "question") == Field(Obj(fields), "question");
    assert Field(Obj(fields'), "context") == Field(Obj(fields), "context");
    PrepareThroughSlice(key, fields', fields);
    PostThroughPrepare(key, Parsed(Obj(fields')), key, Parsed(Obj(fields)), provider);
  }

  /** Characters of a string context beyond the first 8000 never matter. */
  lemma ContextBeyondLimitIgnored(key: Option<string>, fields: map<string, Value>, c1: string, c2: string, provider: ProviderOutcome)
    requires Prefix(c1, ContextLimit) == Prefix(c2, ContextLimit)
    ensures Prepare(key, Parsed(Obj(fields["context" := Str(c1)])))
         == Prepare(key, Parsed(Obj(fields["context" := Str(c2)])))
    ensures Post(key, Parsed(Obj(fields["context" := Str(c1)])), provider)
         == Post(key, Parsed(Obj(fields["context" := Str(c2)])), provider)
  {
    var b1 := Obj(fields["context" := Str(c1)]);
    var b2 := Obj(fields["context" := Str(c2)]);
    assert Field(b1, "context") == Str(c1);
    assert Field(b2, "context") == Str(c2);
    assert Field(b1, "question") == Field(b2, "question");
    assert Truthy(Str(c1)) == Truthy(Str(c2)) by {
      if c1 != [] { assert |Prefix(c1, ContextLimit)| > 0; }
      if c2 != [] { assert |Prefix(c2, ContextLimit)| > 0; }
    }
    assert SliceContext(Str(c1)) == SliceContext(Str(c2));
    PrepareThroughSlice(key, fields["context" := Str(c1)], fields["context" := Str(c2)]);
    PostThroughPrepare(key, Parsed(b1), key, Parsed(b2), provider);
  }

  /** An empty string context is answered with 400, whatever the question. */
  lemma EmptyContextRejected(key: Option<string>, fields: map<string, Value>, provider: ProviderOutcome)
    requires !BlankKey(key)
    requires "context" in fields && fields["context"] == Str([])
    ensures Post(key, Parsed(Obj(fields)), provider) == Response(400, Some(MissingInput), CorsHeaders)
  {
    assert Field(Obj(fields), "context") == Str([]);
  }

  /** With a non-blank key and non-empty string `question` and `context`, the
      provider is called with the question verbatim and exactly the first
      8000 characters of the context. */
  lemma PromptCarriesQuestionAndContext(key: Option<string>, fields: map<string, Value>, q: string, c: string)
    requires !BlankKey(key)
    requires "question" in fields && fields["question"] == Str(q) && q != []
    requires "context" in fields && fields["context"] == Str(c) && c != []
    ensures Prepare(key, Parsed(Obj(fields))) == Call(Prompt(q, Prefix(c, ContextLimit)))
  {
    assert Field(Obj(fields), "question") == Str(q);
    assert Field(Obj(fields), "context") == Str(c);
  }

  /** A string containing `needle` contains its first character. */
  lemma {:induction false} ContainsHead(haystack: string, needle: string)
    requires needle != [] && Contains(haystack, needle)
    ensures exists i | 0 <= i < |haystack| :: haystack[i] == needle[0]
    decreases |haystack|
  {
    if haystack[..|needle|] == needle {
      assert haystack[0] == needle[0];
    } else {
      ContainsHead(haystack[1..], needle);
      var i :| 0 <= i < |haystack[1..]| && haystack[1..][i] == needle[0];
      assert haystack[i + 1] == needle[0];
    }
  }

  /** The printing TypeError is not mistaken for a rejected key. */
  lemma PrintErrorIsSystemError()
    ensures Classify(PrintError()) == Response(500, Some(SystemError(PrintErrorText())), CorsHeaders)
  {
    if RejectsKey(PrintError()) {
      ContainsHead(PrintErrorText(), "API_KEY_INVALID");
      PrintErrorTextHasNoA();
    }
  }

  /** Behind a usable key and a truthy `question` and `context`, the provider
      is called exactly when both pieces of the prompt can be printed and the
      context has a `slice` method. */
  lemma PrintableMeaning(key: Option<string>, fields: map<string, Value>)
    requires !BlankKey(key)
    requires "question" in fields && Truthy(fields["question"])
    requires "context" in fields && Truthy(fields["context"])
    ensures var kept := SliceContext(fields["context"]);
      Prepare(key, Parsed(Obj(fields))).Call? <==> !Unprintable(fields["question"]) && kept.Some? && !Unprintable(kept.value)
  {
    assert Field(Obj(fields), "question") == fields["question"];
    assert Field(Obj(fields), "context") == fields["context"];
  }

  /** A question, or a kept part of an array context, holding an object with
      its own `toString` property makes the template literal throw, and the
      route answers 500 with that TypeError's message whatever the provider
      would have said. */
  lemma PrintFailure(key: Option<string>, fields: map<string, Value>, provider: ProviderOutcome)
    requires !BlankKey(key)
    requires "question" in fields && Truthy(fields["question"])
    requires "context" in fields && Truthy(fields["context"])
    requires var kept := SliceContext(fields["context"]);
      Unprintable(fields["question"]) || (kept.Some? && Unprintable(kept.value))
    ensures Post(key, Parsed(Obj(fields)), provider) == Response(500, Some(SystemError(PrintErrorText())), CorsHeaders)
  {
    assert Field(Obj(fields), "question") == fields["question"];
    assert Field(Obj(fields), "context") == fields["context"];
    assert Prepare(key, Parsed(Obj(fields))) == Raise(PrintError());
    PrintErrorIsSystemError();
  }

  /** The prompt text holds the question verbatim and the kept context
      verbatim at fixed offsets, and its length is the two pieces plus a fixed
      amount; with the context cut to 8000 characters, the prompt is bounded
      whatever the page's length. */
  lemma PromptTextLayout(p: Prompt)
    ensures var t := PromptText(p);
      var at := |PromptHead()| + |p.question| + |PromptMid()|;
      && |t| == at + |p.context| + |PromptTail()|
      && t[|PromptHead()|..|PromptHead()| + |p.question|] == p.question
      && t[at..at + |p.context|] == p.context
  {
    var t := PromptText(p);
    var at := |PromptHead()| + |p.question| + |PromptMid()|;
    assert t == ((((PromptHead() + p.question) + PromptMid()) + p.context) + PromptTail());
    assert t[|PromptHead()|..|PromptHead()| + |p.question|] == p.question;
    assert t[at..at + |p.context|] == p.context;
  }

  /** Every response of the route, `POST` or `OPTIONS`, carries the same CORS
      headers, whose names and values are those the browser needs to let any
      page call the route with the key header. */
  lemma CorsEverywhere(key: Option<string>, body: Body, provider: ProviderOutcome)
    ensures Post(key, body, provider).headers == Options().headers == CorsHeaders
    ensures seq(|CorsHeaders|, i requires 0 <= i < |CorsHeaders| => (HeaderName(CorsHeaders[i]), HeaderValue(CorsHeaders[i])))
         == [("Access-Control-Allow-Origin", "*"),
             ("Access-Control-Allow-Methods", "POST, OPTIONS"),
             ("Access-Control-Allow-Headers", "Content-Type, x-gemini-api-key")]
  {
  }
}

=== FILE: protocol.dfy ===
/** The widget and the route together: the request `handleSend` posts, as
    the route's `req.json()` reads it back, and the route's reply as the
    widget reads it. */
module Protocol {
  import opened Text
  import opened Wrappers
  import G = Gateway
  import W = Widget

  /** One history entry after `JSON.stringify` and `req.json()`. */
  function EntryValue(e: W.WireEntry): G.Value {
    G.Obj(map[
      "role" := G.Str(e.role),
      "parts" := G.Arr(seq(|e.parts|, k requires 0 <= k < |e.parts| => G.Obj(map["text" := G.Str(e.parts[k].text)])))])
  }

  /** The body fields other than `history`. */
  function AskedFields(r: W.Request): map<string, G.Value> {
    map["question" := G.Str(r.question), "context" := G.Str(r.context)]
  }

  /** The `history` array after `JSON.stringify` and `req.json()`. */
  function HistoryValue(h: seq<W.WireEntry>): G.Value {
    G.Arr(seq(|h|, k requires 0 <= k < |h| => EntryValue(h[k])))
  }

  /** The whitespace `fetch` strips from both ends of a header value: tab,
      line feed, carriage return and space. */
  predicate IsHttpSpace(c: char) {
    c == '\t' || c == '\n' || c == '\r' || c == ' '
  }

  /** Drops leading HTTP whitespace. */
  function StripStart(v: string): (r: string)
    ensures |r| <= |v| && r == v[|v| - |r|..]
    ensures forall k | 0 <= k < |v| - |r| :: IsHttpSpace(v[k])
    ensures r == [] || !IsHttpSpace(r[0])
  {
    if v != [] && IsHttpSpace(v[0]) then StripStart(v[1..]) else v
  }

  /** Drops trailing HTTP whitespace. */
  function StripEnd(v: string): (r: string)
    ensures |r| <= |v| && r == v[..|r|]
    ensures forall k | |r| <= k < |v| :: IsHttpSpace(v[k])
    ensures r == [] || !IsHttpSpace(r[|r| - 1])
  {
    if v != [] && IsHttpSpace(v[|v| - 1]) then StripEnd(v[..|v| - 1]) else v
  }

  /** A header value as `fetch` normalises it before sending. */
  function StripHeader(v: string): string {
    StripEnd(StripStart(v))
  }

  /** Whether `fetch` accepts the key as the value of a request header: each
      character must fit in a byte (at most U+00FF), and once its ends are
      stripped it must hold no NUL, line feed or carriage return. Otherwise
      `fetch` throws a TypeError and nothing is sent. */
  predicate Transmittable(key: string) {
    && (forall i | 0 <= i < |key| :: key[i] as int <= 0xFF)
    && (forall i | 0 <= i < |StripHeader(key)| :: StripHeader(key)[i] !in "\0\n\r")
  }

  /** HTTP whitespace is JavaScript whitespace. */
  lemma HttpSpaceIsSpace(c: char)
    ensures IsHttpSpace(c) ==> IsSpace(c)
  {
  }

  /** The stripped value is a slice of the value with only HTTP whitespace
      around it. */
  lemma StripSlice(v: string) returns (i: nat, j: nat)
    ensures i <= j <= |v| && StripHeader(v) == v[i..j]
    ensures forall k | 0 <= k < i :: IsHttpSpace(v[k])
    ensures forall k | j <= k < |v| :: IsHttpSpace(v[k])
  {
    var t := StripStart(v);
    var r := StripEnd(t);
    i := |v| - |t|;
    j := i + |r|;
    assert t[|r|..] == v[j..];
    forall k | j <= k < |v| ensures IsHttpSpace(v[k]) {
      assert v[k] == t[k - i];
    }
    assert v[i..j] == t[..|r|];
  }

  /** Stripping HTTP whitespace never turns a key with a visible character
      into a blank one, nor a blank key into one with a visible character. */
  lemma StripKeepsBlank(v: string)
    ensures AllSpace(StripHeader(v)) <==> AllSpace(v)
  {
    var i, j := StripSlice(v);
    var r := StripHeader(v);
    if AllSpace(r) {
      forall k | 0 <= k < |v| ensures IsSpace(v[k]) {
        if k < i || j <= k {
          HttpSpaceIsSpace(v[k]);
        } else {
          assert v[k] == r[k - i];
        }
      }
    } else {
      var k :| 0 <= k < |r| && !IsSpace(r[k]);
      assert v[i + k] == r[k];
    }
  }

  /** A key with no whitespace at either end is sent as it is. */
  lemma StripOfTrimmed(v: string)
    requires v == [] || (!IsSpace(v[0]) && !IsSpace(v[|v| - 1]))
    ensures StripHeader(v) == v
  {
    if v != [] {
      HttpSpaceIsSpace(v[0]);
      HttpSpaceIsSpace(v[|v| - 1]);
      assert StripStart(v) == v;
    }
  }

  /** The body as `req.json()` gives it back: an object with the fields
      `question`, `context` and `history`. */
  function SentBody(r: W.Request): (v: G.Value)
    ensures v.Obj?
    ensures G.Field(v, "question") == G.Str(r.question)
    ensures G.Field(v, "context") == G.Str(r.context)
  {
    G.Obj(AskedFields(r)["history" := HistoryValue(r.history)])
  }

  /** The request as the route receives it: the `x-gemini-api-key` header,
      stripped of HTTP whitespace at its ends, and the parsed body. */
  function Deliver(r: W.Request): (d: (Option<string>, G.Body))
    ensures d.0.Some? && (G.BlankKey(d.0) <==> AllSpace(r.key))
    ensures d.1.Parsed? && d.1.json.Obj?
    ensures G.Field(d.1.json, "question") == G.Str(r.question)
    ensures G.Field(d.1.json, "context") == G.Str(r.context)
  {
    StripKeepsBlank(r.key);
    (Some(StripHeader(r.key)), G.Parsed(SentBody(r)))
  }

  /** A trimmed key that `fetch` accepts, such as a key the settings panel
      saves with only byte-sized characters, reaches the route unchanged. */
  lemma TrimmedKeyArrivesUnchanged(r: W.Request)
    requires Trim(r.key) == r.key && Transmittable(r.key)
    ensures Deliver(r).0 == Some(r.key)
  {
    StripOfTrimmed(r.key);
  }

  /** What the widget reads from a response: the status and `data.answer`. */
  function Observe(resp: G.Response): W.FetchOutcome {
    W.Replied(resp.status, if resp.answer.Some? then G.AnswerText(resp.answer.value) else "")
  }

  /** The route's response to a request of the widget. */
  function Serve(r: W.Request, provider: G.ProviderOutcome): G.Response {
    var (key, body) := Deliver(r);
    G.Post(key, body, provider)
  }

  /** The widget reads a generated answer verbatim. */
  lemma ObserveModelText(text: string)
    ensures Observe(G.Response(200, Some(G.ModelText(text)), G.CorsHeaders)) == W.Replied(200, text)
  {
  }

  /** The route sees the request's key, question and context unchanged. */
  lemma DeliverKeepsFields(r: W.Request)
    ensures var fields := AskedFields(r)["history" := HistoryValue(r.history)];
      && "question" in fields && fields["question"] == G.Str(r.question)
      && "context" in fields && fields["context"] == G.Str(r.context)
      && Deliver(r) == (Some(StripHeader(r.key)), G.Parsed(G.Obj(fields)))
  {
  }

  /** How the widget's `fetch` of a request ends: with a TypeError before
      anything is sent when the key is not a valid header value, and
      otherwise with the route's reply. */
  function Fetch(r: W.Request, provider: G.ProviderOutcome): W.FetchOutcome {
    if Transmittable(r.key) then Observe(Serve(r, provider)) else W.Threw
  }

  /** One send against the route: the request `handleSend` builds goes
      through `fetch` to `POST`, and the widget takes in the outcome. */
  function Ask(s: W.Session, pageText: string, provider: G.ProviderOutcome): W.Session {
    match W.Send(s, pageText, W.Threw).request
    case None => W.Send(s, pageText, W.Threw).session
    case Some(req) => W.Send(s, pageText, Fetch(req, provider)).session
  }

  /** The request `handleSend` makes does not depend on how it is answered. */
  lemma RequestIndependentOfOutcome(s: W.Session, pageText: string, o1: W.FetchOutcome, o2: W.FetchOutcome)
    ensures W.Send(s, pageText, o1).request == W.Send(s, pageText, o2).request
  {
  }

  /** When the question is not blank, the key has a visible character and is
      accepted by `fetch`, and the page has a visible character, the request
      reaches the route, which calls the provider with the trimmed question
      and the page text cleaned as `getPageContext` does, cut to 8000
      characters. */
  lemma DeliveredRequestReachesProvider(s: W.Session, pageText: string, outcome: W.FetchOutcome)
    requires W.Send(s, pageText, outcome).request.Some?
    requires !AllSpace(s.apiKey) && !AllSpace(pageText)
    requires Transmittable(s.apiKey)
    ensures var (key, body) := Deliver(W.Send(s, pageText, outcome).request.value);
      G.Prepare(key, body) == G.Call(G.Prompt(Trim(s.draft), W.Normalise(pageText, G.ContextLimit)))
  {
    var req := W.Send(s, pageText, outcome).request.value;
    assert req.context == W.PageContext(pageText) && req.key == s.apiKey && req.question == Trim(s.draft);
    W.PageContextEmptyIff(pageText);
    DeliverKeepsFields(req);
    G.PromptCarriesQuestionAndContext(Some(StripHeader(req.key)), AskedFields(req)["history" := HistoryValue(req.history)], req.question, req.context);
    NormaliseTwice(pageText, W.PageContextLimit, G.ContextLimit);
  }

  /** Cutting the cleaned page text to 12000 and then to 8000 characters is
      cutting it to 8000. */
  lemma NormaliseTwice(text: string, wide: nat, narrow: nat)
    requires narrow <= wide
    ensures Prefix(W.Normalise(text, wide), narrow) == W.Normalise(text, narrow)
  {
    PrefixOfPrefix(Trim(Collapse(text)), wide, narrow);
  }

  /** A page without visible text yields an empty context. With a key
      `fetch` accepts, the route answers it with 400 whatever the provider
      would have said, and the widget reads that reply. */
  lemma BlankPageRejected(s: W.Session, pageText: string, outcome: W.FetchOutcome, provider: G.ProviderOutcome)
    requires W.Send(s, pageText, outcome).request.Some?
    requires !AllSpace(s.apiKey) && AllSpace(pageText)
    requires Transmittable(s.apiKey)
    ensures Serve(W.Send(s, pageText, outcome).request.value, provider) == G.Response(400, Some(G.MissingInput), G.CorsHeaders)
    ensures Fetch(W.Send(s, pageText, outcome).request.value, provider) == W.Replied(400, G.MissingInputText())
  {
    var req := W.Send(s, pageText, outcome).request.value;
    assert req.context == W.PageContext(pageText) && req.key == s.apiKey;
    W.PageContextEmptyIff(pageText);
    DeliverKeepsFields(req);
    G.EmptyContextRejected(Some(StripHeader(req.key)), AskedFields(req)["history" := HistoryValue(req.history)], provider);
  }

  /** The widget only checks that its key is non-empty; a key of only
      whitespace that `fetch` accepts (such as U+00A0) passes it, and the
      route answers it with 401, which the widget reads. */
  lemma WhitespaceKeyRejected(s: W.Session, pageText: string, outcome: W.FetchOutcome, provider: G.ProviderOutcome)
    requires W.Send(s, pageText, outcome).request.Some?
    requires AllSpace(s.apiKey) && Transmittable(s.apiKey)
    ensures Serve(W.Send(s, pageText, outcome).request.value, provider) == G.Response(401, Some(G.AskForKey), G.CorsHeaders)
    ensures Fetch(W.Send(s, pageText, outcome).request.value, provider) == W.Replied(401, G.AskForKeyText())
  {
  }

  /** The conversation sent along never changes the route's response. */
  lemma HistoryNotConsulted(r: W.Request, h: seq<W.WireEntry>, provider: G.ProviderOutcome)
    ensures Serve(r.(history := h), provider) == Serve(r, provider)
  {
    var (key, body) := Deliver(r);
    var (key', body') := Deliver(r.(history := h));
    assert AskedFields(r.(history := h)) == AskedFields(r);
    G.OtherFieldsIgnored(key, AskedFields(r), "history", body'.json.fields["history"], provider);
    G.OtherFieldsIgnored(key, AskedFields(r), "history", body.json.fields["history"], provider);
  }

  /** End to end: a question on a page with visible text, sent with a usable
      key that `fetch` accepts, adds exactly the question and the provider's text to the
      conversation when the provider answers. */
  lemma AskRecordsProviderText(s: W.Session, pageText: string, text: string)
    requires Trim(s.draft) != [] && !AllSpace(s.apiKey) && !AllSpace(pageText)
    requires Transmittable(s.apiKey)
    ensures Ask(s, pageText, G.Generated(text)).history
         == s.history + [W.Turn(W.User, Trim(s.draft)), W.Turn(W.Bot, text)]
  {
    var req := W.Send(s, pageText, W.Threw).request.value;
    DeliveredRequestReachesProvider(s, pageText, W.Threw);
    var (key, body) := Deliver(req);
    G.ProviderDecides(key, body, G.Generated(text));
    ObserveModelText(text);
    assert Ask(s, pageText, G.Generated(text)) == W.Send(s, pageText, W.Replied(200, text)).session;
  }

  /** End to end: when the provider fails, nothing is added to the
      conversation, whatever the question, key and page. */
  lemma AskFailureKeepsHistory(s: W.Session, pageText: string, e: G.JsError)
    ensures Ask(s, pageText, G.Failed(e)).history == s.history
  {
    match W.Send(s, pageText, W.Threw).request
    case None =>
    case Some(req) =>
      FailureIsNotReplied200(req, e);
  }

  /** A failing provider never yields a status 200 reply to the widget. */
  lemma FailureIsNotReplied200(req: W.Request, e: G.JsError)
    ensures var o := Fetch(req, G.Failed(e)); o.Threw? || o.status != 200
  {
    var (key, body) := Deliver(req);
    G.Status200Meaning(key, body, G.Failed(e));
  }

  /** End to end: a key `fetch` refuses as a header value, such as one with a
      character above U+00FF, makes the send fail before it reaches the route,
      and nothing is added to the conversation. */
  lemma UntransmittableKeyKeepsHistory(s: W.Session, pageText: string, provider: G.ProviderOutcome)
    requires !Transmittable(s.apiKey)
    ensures Ask(s, pageText, provider).history == s.history
  {
  }

  /** The route's reply is always an object, so the widget never sees a
      `null` body from it. */
  lemma FetchNeverNull(req: W.Request, provider: G.ProviderOutcome)
    ensures !Fetch(req, provider).RepliedNull?
  {
  }

  /** End to end: a send against the route keeps the conversation paired,
      whatever the question, key, page and provider outcome. */
  lemma AskKeepsPaired(s: W.Session, pageText: string, provider: G.ProviderOutcome)
    requires W.Paired(s.history)
    ensures W.Paired(Ask(s, pageText, provider).history)
  {
    match W.Send(s, pageText, W.Threw).request
    case None =>
      W.ApplyKeepsPaired(s, W.Click(pageText, W.Threw));
    case Some(req) =>
      var o := Fetch(req, provider);
      FetchNeverNull(req, provider);
      W.ApplyKeepsPaired(s, W.Click(pageText, o));
  }
}

=== FILE: text.dfy ===
/** String helpers shared by the gateway and the widget: JavaScript's notion of
    whitespace, `String.prototype.trim`, the collapse of whitespace runs into
    single spaces, and taking the first n characters. */
module Text {

  /** The characters of JavaScript's `\s` class, which is also the set that
      `String.prototype.trim` strips (WhiteSpace plus LineTerminator). */
  predicate IsSpace(c: char) {
    var n := c as int;
    || n == 0x09 || n == 0x0A || n == 0x0B || n == 0x0C || n == 0x0D || n == 0x20
    || n == 0xA0 || n == 0x1680 || (0x2000 <= n <= 0x200A)
    || n == 0x2028 || n == 0x2029 || n == 0x202F || n == 0x205F || n == 0x3000
    || n == 0xFEFF
  }

  predicate AllSpace(s: string) {
    forall i | 0 <= i < |s| :: IsSpace(s[i])
  }

  /** No two neighbouring characters are both whitespace. */
  ghost predicate NoAdjacentSpaces(s: string) {
    forall i, j | 0 <= i < j < |s| && j == i + 1 :: !(IsSpace(s[i]) && IsSpace(s[j]))
  }

  /** Every whitespace character is the plain space U+0020. */
  predicate SpacesArePlain(s: string) {
    forall i | 0 <= i < |s| :: IsSpace(s[i]) ==> s[i] == ' '
  }

  /** `r` is `s[i..j]`, with only whitespace before `i` and after `j`, and
      `r` itself starts and ends with a non-whitespace character (or is empty). */
  ghost predicate TrimAt(r: string, s: string, i: int, j: int) {
    && 0 <= i <= j <= |s|
    && r == s[i..j]
    && AllSpace(s[..i])
    && AllSpace(s[j..])
    && (r == [] || (!IsSpace(r[0]) && !IsSpace(r[|r| - 1])))
  }

  /** `r` is what trimming `s` must give. */
  ghost predicate IsTrimOf(r: string, s: string) {
    exists i, j :: TrimAt(r, s, i, j)
  }

  /** Drops leading whitespace. */
  function TrimStart(s: string): (r: string)
    ensures |r| <= |s| && r == s[|s| - |r|..]
    ensures AllSpace(s[..|s| - |r|])
    ensures r == [] || !IsSpace(r[0])
  {
    if s != [] && IsSpace(s[0]) then
      var r := TrimStart(s[1..]);
      assert s[1..][|s| - 1 - |r|..] == s[|s| - |r|..];
      assert forall k | 0 <= k < |s| - |r| :: s[k] == if k == 0 then s[0] else s[1..][..|s| - 1 - |r|][k - 1];
      r
    else
      s
  }

  /** Drops trailing whitespace. */
  function TrimEnd(s: string): (r: string)
    ensures |r| <= |s| && r == s[..|r|]
    ensures AllSpace(s[|r|..])
    ensures r == [] || !IsSpace(r[|r| - 1])
  {
    if s != [] && IsSpace(s[|s| - 1]) then
      var r := TrimEnd(s[..|s| - 1]);
      assert s[..|s| - 1][..|r|] == s[..|r|];
      assert forall k | |r| <= k < |s| :: s[k] == if k == |s| - 1 then s[|s| - 1] else s[..|s| - 1][|r|..][k - |r|];
      r
    else
      s
  }

  /** `String.prototype.trim`. */
  function Trim(s: string): (r: string)
    ensures IsTrimOf(r, s)
    ensures |r| <= |s|
    ensures r == [] || (!IsSpace(r[0]) && !IsSpace(r[|r| - 1]))
  {
    TrimBothEnds(s, TrimStart(s), TrimEnd(TrimStart(s)));
    TrimEnd(TrimStart(s))
  }

  /** Dropping leading whitespace (giving `t`) and then trailing whitespace
      (giving `r`) yields the trimmed form. */
  lemma TrimBothEnds(s: string, t: string, r: string)
    requires |t| <= |s| && t == s[|s| - |t|..] && AllSpace(s[..|s| - |t|])
    requires t == [] || !IsSpace(t[0])
    requires |r| <= |t| && r == t[..|r|] && AllSpace(t[|r|..])
    requires r == [] || !IsSpace(r[|r| - 1])
    ensures TrimAt(r, s, |s| - |t|, |s| - |t| + |r|)
  {
    var i := |s| - |t|;
    assert r == s[i..i + |r|] by {
      assert s[i..][..|r|] == s[i..i + |r|];
    }
    assert s[i + |r|..] == t[|r|..];
    if r != [] {
      assert r[0] == t[0];
    }
  }

  lemma FirstVisibleUnique(s: string, i1: nat, i2: nat)
    requires i1 < |s| && i2 < |s| && !IsSpace(s[i1]) && !IsSpace(s[i2])
    requires AllSpace(s[..i1]) && AllSpace(s[..i2])
    ensures i1 == i2
  {
  }

  lemma LastVisibleUnique(s: string, j1: nat, j2: nat)
    requires 0 < j1 <= |s| && 0 < j2 <= |s| && !IsSpace(s[j1 - 1]) && !IsSpace(s[j2 - 1])
    requires AllSpace(s[j1..]) && AllSpace(s[j2..])
    ensures j1 == j2
  {
  }

  lemma EmptyTrimAllSpace(s: string, i: int, j: int)
    requires TrimAt([], s, i, j)
    ensures AllSpace(s)
  {
    forall k | 0 <= k < |s| ensures IsSpace(s[k]) {
      if k < i { assert s[..i][k] == s[k]; } else { assert s[j..][k - j] == s[k]; }
    }
  }

  /** The trimmed form is determined by the string: any two candidates agree. */
  lemma TrimOfUnique(r1: string, r2: string, s: string)
    requires IsTrimOf(r1, s) && IsTrimOf(r2, s)
    ensures r1 == r2
  {
    var i1, j1 :| TrimAt(r1, s, i1, j1);
    var i2, j2 :| TrimAt(r2, s, i2, j2);
    if r1 == [] && r2 != [] {
      EmptyTrimAllSpace(s, i1, j1);
    } else if r2 == [] && r1 != [] {
      EmptyTrimAllSpace(s, i2, j2);
    } else if r1 != [] {
      assert s[i1] == r1[0] && s[i2] == r2[0];
      FirstVisibleUnique(s, i1, i2);
      assert s[j1 - 1] == r1[|r1| - 1] && s[j2 - 1] == r2[|r2| - 1];
      LastVisibleUnique(s, j1, j2);
    }
  }

  /** Trimming twice is trimming once. */
  lemma TrimIdempotent(s: string)
    ensures Trim(Trim(s)) == Trim(s)
  {
    var r := Trim(s);
    assert r[0..|r|] == r && r[..0] == [] && r[|r|..] == [];
    assert TrimAt(r, r, 0, |r|);
    TrimOfUnique(Trim(r), r, r);
  }

  /** A string trims to nothing exactly when it is all whitespace; this is the
      trims-to-empty test both the route and the widget use. */
  lemma TrimEmptyIffAllSpace(s: string)
    ensures Trim(s) == [] <==> AllSpace(s)
  {
    var r := Trim(s);
    var i, j :| TrimAt(r, s, i, j);
    if r == [] {
      EmptyTrimAllSpace(s, i, j);
    } else {
      assert s[i] == r[0];
    }
  }

  /** The first `n` elements, or all of them when there are fewer: what
      JavaScript's `slice` and `substring` give from index 0 with a
      non-negative end. */
  function Prefix<T>(s: seq<T>, n: nat): (r: seq<T>)
    ensures |r| <= n && |r| <= |s|
    ensures |r| == |s| || |r| == n
    ensures r == s[..|r|]
  {
    if |s| <= n then s else s[..n]
  }

  /** Cutting to `wide` and then to a smaller `narrow` is cutting to `narrow`. */
  lemma PrefixOfPrefix<T>(s: seq<T>, wide: nat, narrow: nat)
    requires narrow <= wide
    ensures Prefix(Prefix(s, wide), narrow) == Prefix(s, narrow)
  {
    if narrow < |s| {
      assert Prefix(s, wide)[..narrow] == s[..narrow];
    }
  }

  /** The global replacement of whitespace runs by one space: every maximal
      run of whitespace becomes one plain space, everything else is copied. */
  function Collapse(s: string): (r: string)
    ensures |r| <= |s|
    ensures r == [] <==> s == []
    ensures s != [] ==> r[0] == if IsSpace(s[0]) then ' ' else s[0]
    ensures NoAdjacentSpaces(r)
    ensures SpacesArePlain(r)
    decreases |s|
  {
    if s == [] then []
    else if IsSpace(s[0]) then [' '] + Collapse(TrimStart(s))
    else [s[0]] + Collapse(s[1..])
  }

  /** The non-whitespace characters of `s`, in order. */
  function Visible(s: string): string {
    if s == [] then []
    else if IsSpace(s[0]) then Visible(s[1..])
    else [s[0]] + Visible(s[1..])
  }

  lemma {:induction false} VisibleAppend(a: string, b: string)
    ensures Visible(a + b) == Visible(a) + Visible(b)
  {
    if a == [] {
      assert a + b == b;
    } else {
      assert (a + b)[1..] == a[1..] + b;
      VisibleAppend(a[1..], b);
    }
  }

  /** A string is all whitespace exactly when it has no visible character. */
  lemma {:induction false} AllSpaceIffInvisible(s: string)
    ensures AllSpace(s) <==> Visible(s) == []
    decreases |s|
  {
    if s != [] {
      AllSpaceIffInvisible(s[1..]);
      assert AllSpace(s) <==> IsSpace(s[0]) && AllSpace(s[1..]) by {
        assert forall k | 1 <= k < |s| :: s[k] == s[1..][k - 1];
      }
    }
  }

  lemma {:induction false} VisibleOfSpaces(s: string)
    requires AllSpace(s)
    ensures Visible(s) == []
  {
    if s != [] {
      VisibleOfSpaces(s[1..]);
    }
  }

  lemma VisibleTrimStart(s: string)
    ensures Visible(TrimStart(s)) == Visible(s)
  {
    var t := TrimStart(s);
    var k := |s| - |t|;
    var lead := s[..k];
    assert s == lead + t by { assert s[k..] == t; }
    VisibleAppend(lead, t);
    VisibleOfSpaces(lead);
  }

  /** Collapsing keeps every non-whitespace character, in order. */
  lemma {:induction false} CollapseKeepsVisible(s: string)
    ensures Visible(Collapse(s)) == Visible(s)
    decreases |s|
  {
    if s == [] {
    } else if IsSpace(s[0]) {
      var t := TrimStart(s);
      CollapseKeepsVisible(t);
      VisibleAppend([' '], Collapse(t));
      VisibleTrimStart(s);
    } else {
      CollapseKeepsVisible(s[1..]);
      VisibleAppend([s[0]], Collapse(s[1..]));
    }
  }

  /** A single space followed by a visible character (or nothing) is all
      the leading whitespace there is. */
  lemma TrimStartSingleSpace(s: string)
    requires s != [] && IsSpace(s[0]) && (|s| == 1 || !IsSpace(s[1]))
    ensures TrimStart(s) == s[1..]
  {
    assert TrimStart(s[1..]) == s[1..];
  }

  /** The tail of a string with plain, isolated spaces has them too, and a
      leading space is then the whole leading run. */
  lemma ShapedTail(s: string)
    requires s != [] && NoAdjacentSpaces(s) && SpacesArePlain(s)
    ensures NoAdjacentSpaces(s[1..]) && SpacesArePlain(s[1..])
    ensures IsSpace(s[0]) ==> s[0] == ' ' && TrimStart(s) == s[1..]
  {
    InfixKeepsShape(s, 1, |s|);
    assert s[1..|s|] == s[1..];
    if IsSpace(s[0]) {
      assert |s| > 1 ==> !IsSpace(s[1]);
      TrimStartSingleSpace(s);
    }
  }

  /** A string with only plain, isolated spaces is left alone by the collapse. */
  lemma {:induction false} CollapseOfShaped(s: string)
    requires NoAdjacentSpaces(s) && SpacesArePlain(s)
    ensures Collapse(s) == s
    decreases |s|
  {
    if s != [] {
      ShapedTail(s);
      CollapseOfShaped(s[1..]);
      assert Collapse(s) == [s[0]] + Collapse(s[1..]);
      assert s == [s[0]] + s[1..];
    }
  }

  /** A string is left alone by the collapse exactly when it already has only
      plain, isolated spaces. */
  lemma CollapseFixedIff(s: string)
    ensures Collapse(s) == s <==> NoAdjacentSpaces(s) && SpacesArePlain(s)
  {
    if NoAdjacentSpaces(s) && SpacesArePlain(s) {
      CollapseOfShaped(s);
    }
  }

  /** Collapsing twice is collapsing once. */
  lemma CollapseIdempotent(s: string)
    ensures Collapse(Collapse(s)) == Collapse(s)
  {
    CollapseFixedIff(Collapse(s));
  }

  /** A contiguous piece of a string keeps its whitespace shape. */
  lemma InfixKeepsShape(s: string, i: nat, j: nat)
    requires i <= j <= |s|
    requires NoAdjacentSpaces(s) && SpacesArePlain(s)
    ensures NoAdjacentSpaces(s[i..j]) && SpacesArePlain(s[i..j])
  {
    forall k | 0 <= k < j - i - 1 ensures !(IsSpace(s[i..j][k]) && IsSpace(s[i..j][k + 1])) {
      assert s[i..j][k] == s[i + k] && s[i..j][k + 1] == s[i + k + 1];
    }
  }

  /** Trimming a string with plain, isolated spaces keeps that shape. */
  lemma TrimKeepsShape(s: string)
    requires NoAdjacentSpaces(s) && SpacesArePlain(s)
    ensures NoAdjacentSpaces(Trim(s)) && SpacesArePlain(Trim(s))
  {
    var i, j :| TrimAt(Trim(s), s, i, j);
    InfixKeepsShape(s, i, j);
  }

  /** A prefix of a string with plain, isolated spaces that starts with a
      visible character has the same three properties. */
  lemma PrefixKeepsShape(t: string, n: nat)
    requires NoAdjacentSpaces(t) && SpacesArePlain(t) && (t == [] || !IsSpace(t[0]))
    ensures var r := Prefix(t, n);
      NoAdjacentSpaces(r) && SpacesArePlain(r) && (r == [] || !IsSpace(r[0]))
  {
    var r := Prefix(t, n);
    InfixKeepsShape(t, 0, |r|);
    assert t[0..|r|] == r;
  }

  /** Dropping the leading whitespace of an all-whitespace `w` placed in
      front of `b`, which starts with a visible character or is empty,
      leaves exactly `b`. */
  lemma {:induction false} TrimStartOfRun(w: string, b: string)
    requires AllSpace(w)
    requires b == [] || !IsSpace(b[0])
    ensures TrimStart(w + b) == b
    decreases |w|
  {
    if w == [] {
      assert w + b == b;
    } else {
      assert (w + b)[1..] == w[1..] + b;
      TrimStartOfRun(w[1..], b);
    }
  }

  /** Leading whitespace ends inside `a` when `a` ends with a visible
      character, so whatever follows `a` is kept as it is. */
  lemma {:induction false} TrimStartAppend(a: string, b: string)
    requires a != [] && !IsSpace(a[|a| - 1])
    ensures TrimStart(a + b) == TrimStart(a) + b
    decreases |a|
  {
    if IsSpace(a[0]) {
      assert (a + b)[1..] == a[1..] + b;
      TrimStartAppend(a[1..], b);
    }
  }

  /** A non-empty run of whitespace collapses to one plain space. */
  lemma CollapseOfRun(w: string)
    requires w != [] && AllSpace(w)
    ensures Collapse(w) == [' ']
  {
    CollapseRunThen(w, []);
    assert w + [] == w;
  }

  /** One step of the collapse: a leading whitespace run becomes one space,
      a leading visible character is copied. */
  lemma CollapseStep(s: string)
    requires s != []
    ensures Collapse(s) == if IsSpace(s[0]) then [' '] + Collapse(TrimStart(s)) else [s[0]] + Collapse(s[1..])
  {
  }

  /** What is left of `a` after the first step of the collapse. */
  function CollapseRest(a: string): (rest: string)
    requires a != [] && !IsSpace(a[|a| - 1])
    ensures |rest| < |a|
    ensures rest == [] || !IsSpace(rest[|rest| - 1])
  {
    if IsSpace(a[0]) then
      var t := TrimStart(a);
      assert t[|t| - 1] == a[|a| - 1];
      t
    else a[1..]
  }

  /** What the first step of the collapse emits for `a`. */
  function CollapseHead(a: string): string
    requires a != []
  {
    if IsSpace(a[0]) then [' '] else [a[0]]
  }

  /** After the first step of the collapse on `a` followed by `b`, what
      remains is the rest of `a` followed by `b`. */
  lemma CollapseRestAppend(a: string, b: string)
    requires a != [] && !IsSpace(a[|a| - 1])
    ensures (a + b)[0] == a[0]
    ensures CollapseRest(a) + b == if IsSpace(a[0]) then TrimStart(a + b) else (a + b)[1..]
  {
    if IsSpace(a[0]) {
      TrimStartAppend(a, b);
    } else {
      assert (a + b)[1..] == a[1..] + b;
    }
  }

  /** The first step of the collapse on `a`, and on `a` followed by anything,
      emits the same head and continues with the same rest. */
  lemma CollapseHeadRest(a: string, b: string)
    requires a != [] && !IsSpace(a[|a| - 1])
    ensures Collapse(a) == CollapseHead(a) + Collapse(CollapseRest(a))
    ensures Collapse(a + b) == CollapseHead(a) + Collapse(CollapseRest(a) + b)
  {
    CollapseStep(a);
    CollapseRestAppend(a, b);
    CollapseStep(a + b);
  }

  /** The collapse works run by run: when `a` is empty or ends with a visible
      character, no whitespace run straddles the seam, and collapsing `a + b`
      collapses each side on its own. */
  lemma {:induction false} CollapseAppend(a: string, b: string)
    requires a == [] || !IsSpace(a[|a| - 1])
    ensures Collapse(a + b) == Collapse(a) + Collapse(b)
    decreases |a|
  {
    if a == [] {
      assert a + b == b;
    } else {
      var rest := CollapseRest(a);
      CollapseAppend(rest, b);
      CollapseHeadRest(a, b);
      ConcatAssoc(CollapseHead(a), Collapse(rest), Collapse(b));
    }
  }

  /** Concatenation is associative; stated apart so that proofs about
      `Collapse` need not rediscover it among that function's facts. */
  lemma ConcatAssoc<T>(x: seq<T>, y: seq<T>, z: seq<T>)
    ensures x + (y + z) == (x + y) + z
  {
  }

  /** A whitespace run in front of a visible character (or of nothing)
      collapses to one space. */
  lemma CollapseRunThen(w: string, b: string)
    requires w != [] && AllSpace(w)
    requires b == [] || !IsSpace(b[0])
    ensures Collapse(w + b) == [' '] + Collapse(b)
  {
    var wb := w + b;
    assert wb[0] == w[0];
    CollapseStep(wb);
    TrimStartOfRun(w, b);
  }

  /** A whitespace run between two visible characters becomes exactly one
      plain space, and both sides are collapsed independently. */
  lemma CollapseInnerRun(a: string, w: string, b: string)
    requires a == [] || !IsSpace(a[|a| - 1])
    requires w != [] && AllSpace(w)
    requires b == [] || !IsSpace(b[0])
    ensures Collapse(a + w + b) == Collapse(a) + [' '] + Collapse(b)
  {
    ConcatAssoc(a, w, b);
    CollapseRunThen(w, b);
    CollapseAppend(a, w + b);
    ConcatAssoc(Collapse(a), [' '], Collapse(b));
  }

  /** A string with no whitespace at either end is its own trim. */
  lemma TrimOfTrimmed(s: string)
    requires s == [] || (!IsSpace(s[0]) && !IsSpace(s[|s| - 1]))
    ensures Trim(s) == s
  {
    assert s[0..|s|] == s && s[..0] == [] && s[|s|..] == [];
    assert TrimAt(s, s, 0, |s|);
    TrimOfUnique(Trim(s), s, s);
  }
}

=== FILE: widget.dfy ===
/** The chat session of the embeddable widget `public/ai-widget.js`: the
    conversation it keeps, the key it holds, the `handleSend` step, the
    save-key handler and the text clean-up of `getPageContext`. */
module Widget {
  import opened Text
  import opened Wrappers

  /** `getPageContext` keeps at most this many characters. */
  const PageContextLimit: nat := 12000

  datatype Role = User | Bot

  /** One entry of `chatHistory`: `{ role, content }`. */
  datatype Turn = Turn(role: Role, content: string)

  datatype Part = Part(text: string)

  /** One entry of the `history` array sent to the server: `{ role, parts: [{ text }] }`. */
  datatype WireEntry = WireEntry(role: string, parts: seq<Part>)

  /** The widget's mutable state. */
  datatype Session = Session(
    history: seq<Turn>,        // chatHistory
    apiKey: string,            // userApiKey
    storedKey: Option<string>, // localStorage "gemini_user_key"
    draft: string,             // userInput.value
    sendDisabled: bool,        // sendBtn.disabled
    settingsShown: bool)       // the settings panel carries class "show"

  /** The request `handleSend` issues: the key header and the JSON body. */
  datatype Request = Request(key: string, question: string, context: string, history: seq<WireEntry>)

  /** How `fetch` followed by `res.json()` ended: a status and the body's
      `answer`, a status and a body that is JSON `null` (reading its `answer`
      throws), or an exception (network failure or unparsable body). */
  datatype FetchOutcome = Replied(status: int, answer: string) | RepliedNull(status: int) | Threw

  datatype SendResult = SendResult(session: Session, request: Option<Request>)

  /** The widget's user-driven events: typing into the input, a send (button
      or Enter key, with the page text and the server's reply at that moment),
      and a click on the save-key button with the key field's content. */
  datatype Event = Type(text: string) | Click(pageText: string, outcome: FetchOutcome) | SaveKey(keyInput: string)

  /** The session when the script starts: the key is the one kept in storage,
      or the empty string when storage holds none. */
  function Init(stored: Option<string>): (s: Session)
    ensures s.history == [] && !s.sendDisabled
    ensures s.apiKey == (if stored.Some? then stored.value else "")
  {
    Session([], if stored.Some? then stored.value else "", stored, "", false, false)
  }

  /** The string part of `getPageContext`: every whitespace run becomes one
      space, the ends are trimmed, and the first `limit` characters are kept. */
  function Normalise(text: string, limit: nat): (r: string)
    ensures |r| <= limit && |r| <= |Trim(Collapse(text))|
    ensures r == Trim(Collapse(text))[..|r|]
    ensures |Trim(Collapse(text))| <= limit ==> r == Trim(Collapse(text))
    ensures |r| == if |Trim(Collapse(text))| <= limit then |Trim(Collapse(text))| else limit
    ensures r == [] || !IsSpace(r[0])
    ensures NoAdjacentSpaces(r) && SpacesArePlain(r)
  {
    NormaliseShape(text, limit);
    Prefix(Trim(Collapse(text)), limit)
  }

  lemma NormaliseShape(text: string, limit: nat)
    ensures var r := Prefix(Trim(Collapse(text)), limit);
      && NoAdjacentSpaces(r) && SpacesArePlain(r)
      && (r == [] || !IsSpace(r[0]))
  {
    var c := Collapse(text);
    TrimKeepsShape(c);
    PrefixKeepsShape(Trim(c), limit);
  }

  /** The page text as sent in each request. */
  function PageContext(innerText: string): (r: string)
    ensures |r| <= PageContextLimit
  {
    Normalise(innerText, PageContextLimit)
  }

  /** The context is empty exactly when the page has no visible character. */
  lemma PageContextEmptyIff(pageText: string)
    ensures PageContext(pageText) == [] <==> AllSpace(pageText)
  {
    var c := Collapse(pageText);
    TrimEmptyIffAllSpace(c);
    AllSpaceIffInvisible(c);
    CollapseKeepsVisible(pageText);
    AllSpaceIffInvisible(pageText);
  }

  /** One turn as the server receives it: a user turn keeps the role "user",
      a bot turn is sent with the role "model", and the content is the one
      text part. */
  function ToWire(t: Turn): WireEntry {
    WireEntry(if t.role == User then "user" else "model", [Part(t.content)])
  }

  /** The whole conversation in the form the server receives, turn by turn. */
  function WireHistory(h: seq<Turn>): (r: seq<WireEntry>)
    ensures |r| == |h|
    ensures forall i | 0 <= i < |h| ::
      && (r[i].role == "user" <==> h[i].role == User)
      && (r[i].role == "model" <==> h[i].role == Bot)
      && r[i].parts == [Part(h[i].content)]
  {
    seq(|h|, i requires 0 <= i < |h| => ToWire(h[i]))
  }

  /** Reading a wire history back into turns; "user" is a user turn and any
      other role a bot turn. */
  function FromWire(w: seq<WireEntry>): (r: seq<Turn>)
    ensures |r| == |w|
  {
    seq(|w|, i requires 0 <= i < |w| =>
      Turn(if w[i].role == "user" then User else Bot,
           if w[i].parts != [] then w[i].parts[0].text else ""))
  }

  /** The wire form loses nothing: the history can be read back from it. */
  lemma WireRoundTrip(h: seq<Turn>)
    ensures FromWire(WireHistory(h)) == h
  {
    var w := WireHistory(h);
    forall i | 0 <= i < |h| ensures FromWire(w)[i] == h[i] {
      assert w[i].parts == [Part(h[i].content)];
    }
  }

  /** The wire form of a longer history extends the wire form of the shorter. */
  lemma WireHistoryAppend(a: seq<Turn>, b: seq<Turn>)
    ensures WireHistory(a + b) == WireHistory(a) + WireHistory(b)
  {
    assert forall i | 0 <= i < |a| :: (a + b)[i] == a[i];
    assert forall i | |a| <= i < |a| + |b| :: (a + b)[i] == b[i - |a|];
  }

  /** `handleSend`, run to completion in one step. */
  function Send(s: Session, pageText: string, outcome: FetchOutcome): (r: SendResult)
    ensures Trim(s.draft) == [] ==> r == SendResult(s, None)
    ensures Trim(s.draft) != [] && s.apiKey == [] ==>
              r.request.None? && r.session == s.(settingsShown := true)
    ensures r.request.Some? <==> Trim(s.draft) != [] && s.apiKey != []
    ensures r.request.Some? ==>
              && r.request.value.key == s.apiKey
              && r.request.value.question == Trim(s.draft)
              && r.request.value.history == WireHistory(s.history)
              && r.request.value.context == PageContext(pageText)
              && !r.session.sendDisabled
              && r.session.draft == []
              && r.session.settingsShown == s.settingsShown
    ensures r.request.Some? && outcome.Replied? && outcome.status == 200 ==>
              r.session.history == s.history + [Turn(User, Trim(s.draft)), Turn(Bot, outcome.answer)]
    ensures r.request.Some? && outcome == RepliedNull(200) ==>
              r.session.history == s.history + [Turn(User, Trim(s.draft))]
    ensures r.request.None? || outcome.Threw? || outcome.status != 200 ==>
              r.session.history == s.history
    ensures r.session.apiKey == s.apiKey && r.session.storedKey == s.storedKey
  {
    var question := Trim(s.draft);
    if question == [] then SendResult(s, None)
    else if s.apiKey == [] then SendResult(s.(settingsShown := true), None)
    else
      var request := Request(s.apiKey, question, PageContext(pageText), WireHistory(s.history));
      // On status 200 the user turn is pushed before `data.answer` is read,
      // so a `null` body throws between the two pushes.
      var history :=
        if outcome.Threw? || outcome.status != 200 then s.history
        else if outcome.RepliedNull? then s.history + [Turn(User, question)]
        else s.history + [Turn(User, question), Turn(Bot, outcome.answer)];
      SendResult(s.(history := history, draft := [], sendDisabled := false), Some(request))
  }

  /** The click handler of the save-key button. */
  function SaveKeyClicked(s: Session, keyInput: string): (r: Session)
    ensures r.history == s.history && r.draft == s.draft && r.sendDisabled == s.sendDisabled
    ensures Trim(keyInput) == [] ==> r == s
    ensures Trim(keyInput) != [] ==>
              && r.apiKey == Trim(keyInput)
              && r.storedKey == Some(r.apiKey)
              && !r.settingsShown
  {
    var key := Trim(keyInput);
    if key == [] then s
    else s.(storedKey := Some(key), apiKey := key, settingsShown := false)
  }

  /** A saved key is never blank and has no surrounding whitespace, so the
      next non-empty question is sent with exactly that key. */
  lemma SavedKeyIsUsed(s: Session, keyInput: string, question: string, pageText: string, outcome: FetchOutcome)
    requires !AllSpace(keyInput)
    requires Trim(question) != []
    ensures var saved := SaveKeyClicked(s, keyInput);
      && saved.apiKey != []
      && Trim(saved.apiKey) == saved.apiKey
      && Send(saved.(draft := question), pageText, outcome).request.Some?
      && Send(saved.(draft := question), pageText, outcome).request.value.key == Trim(keyInput)
  {
    TrimEmptyIffAllSpace(keyInput);
    TrimIdempotent(keyInput);
  }

  function Apply(s: Session, e: Event): Session {
    match e
    case Type(text) => s.(draft := text)
    case Click(pageText, outcome) => Send(s, pageText, outcome).session
    case SaveKey(keyInput) => SaveKeyClicked(s, keyInput)
  }

  function Run(s: Session, events: seq<Event>): Session
    decreases |events|
  {
    if events == [] then s else Run(Apply(s, events[0]), events[1..])
  }

  /** The conversation alternates user and bot turns, starting with the user,
      and so has even length. */
  ghost predicate Paired(h: seq<Turn>) {
    && |h| % 2 == 0
    && forall i | 0 <= i < |h| :: h[i].role == if i % 2 == 0 then User else Bot
  }

  lemma PairedAppend(h: seq<Turn>, q: string, a: string)
    requires Paired(h)
    ensures Paired(h + [Turn(User, q), Turn(Bot, a)])
  {
    var h' := h + [Turn(User, q), Turn(Bot, a)];
    forall i | 0 <= i < |h'| ensures h'[i].role == if i % 2 == 0 then User else Bot {
      if i < |h| { assert h'[i] == h[i]; }
    }
  }

  lemma PairedPrepend(h: seq<Turn>, q: string, a: string)
    requires Paired(h)
    ensures Paired([Turn(User, q), Turn(Bot, a)] + h)
  {
    var h' := [Turn(User, q), Turn(Bot, a)] + h;
    forall i | 2 <= i < |h'| ensures h'[i].role == if i % 2 == 0 then User else Bot {
      assert h'[i] == h[i - 2];
    }
  }

  /** A send answered with status 200 and a `null` body. */
  predicate NullAnswered(e: Event) {
    e.Click? && e.outcome == RepliedNull(200)
  }

  /** The event pushes a user turn and then throws before its bot turn. */
  predicate HalfAppends(s: Session, e: Event) {
    NullAnswered(e) && Trim(s.draft) != [] && s.apiKey != []
  }

  /** One event keeps the conversation paired, except a sent question whose
      status 200 reply has a `null` body: that one leaves its user turn alone. */
  lemma ApplyKeepsPaired(s: Session, e: Event)
    requires Paired(s.history)
    ensures Paired(Apply(s, e).history) <==> !HalfAppends(s, e)
  {
    if HalfAppends(s, e) {
      NullReplyLeavesLoneQuestion(s, e.pageText);
    } else if e.Click? {
      var r := Send(s, e.pageText, e.outcome);
      if r.session.history != s.history {
        PairedAppend(s.history, Trim(s.draft), e.outcome.answer);
      }
    }
  }

  /** A sent question answered with status 200 and a `null` body adds its
      user turn only: the conversation becomes odd in length, and the next
      request's wire history ends with that question. */
  lemma NullReplyLeavesLoneQuestion(s: Session, pageText: string)
    requires Trim(s.draft) != [] && s.apiKey != []
    ensures var h := Send(s, pageText, RepliedNull(200)).session.history;
      && h == s.history + [Turn(User, Trim(s.draft))]
      && !Paired(h)
      && WireHistory(h)[|h| - 1] == WireEntry("user", [Part(Trim(s.draft))])
  {
    var h := s.history + [Turn(User, Trim(s.draft))];
    assert Send(s, pageText, RepliedNull(200)).session.history == h;
    LoneQuestionUnpaired(s.history, Trim(s.draft));
    assert WireHistory(h)[|h| - 1] == ToWire(h[|h| - 1]);
  }

  /** A user turn at the end of a conversation always breaks the pairing. */
  lemma LoneQuestionUnpaired(h: seq<Turn>, q: string)
    ensures !Paired(h + [Turn(User, q)])
  {
    var h' := h + [Turn(User, q)];
    assert h'[|h|].role == User;
  }

  /** Any sequence of events without a `null` 200 reply keeps the
      conversation paired; in particular it is paired from the start of every
      session. */
  lemma {:induction false} RunKeepsPaired(s: Session, events: seq<Event>)
    requires Paired(s.history)
    requires forall e | e in events :: !NullAnswered(e)
    ensures Paired(Run(s, events).history)
    decreases |events|
  {
    if events != [] {
      ApplyKeepsPaired(s, events[0]);
      RunKeepsPaired(Apply(s, events[0]), events[1..]);
    }
  }

  /** The conversation is append-only: no event removes or rewrites a turn. */
  lemma {:induction false} RunHistoryGrows(s: Session, events: seq<Event>)
    ensures s.history <= Run(s, events).history
    decreases |events|
  {
    if events != [] {
      var s1 := Apply(s, events[0]);
      assert s.history <= s1.history;
      RunHistoryGrows(s1, events[1..]);
    }
  }

  lemma {:induction false} RunAppend(s: Session, a: seq<Event>, b: seq<Event>)
    ensures Run(s, a + b) == Run(Run(s, a), b)
    decreases |a|
  {
    if a == [] {
      assert a + b == b;
    } else {
      assert (a + b)[0] == a[0] && (a + b)[1..] == a[1..] + b;
      assert Run(s, a + b) == Run(Apply(s, a[0]), a[1..] + b);
      RunAppend(Apply(s, a[0]), a[1..], b);
    }
  }

  /** One question answered with status 200. */
  datatype Exchange = Exchange(question: string, pageText: string, answer: string)

  /** The events of a run of answered questions: type, then send. */
  function Script(xs: seq<Exchange>): seq<Event> {
    if xs == [] then []
    else [Type(xs[0].question), Click(xs[0].pageText, Replied(200, xs[0].answer))] + Script(xs[1..])
  }

  /** Every exchange has a question that is not blank. */
  predicate AllAsked(xs: seq<Exchange>) {
    xs == [] || (Trim(xs[0].question) != [] && AllAsked(xs[1..]))
  }

  /** The turns those exchanges should leave in the conversation. */
  function Transcript(xs: seq<Exchange>): (r: seq<Turn>)
    ensures |r| == 2 * |xs|
    ensures Paired(r)
  {
    if xs == [] then []
    else
      var rest := Transcript(xs[1..]);
      PairedPrepend(rest, Trim(xs[0].question), xs[0].answer);
      [Turn(User, Trim(xs[0].question)), Turn(Bot, xs[0].answer)] + rest
  }

  /** Typing a question and getting status 200 for it appends its two turns. */
  lemma AnsweredExchange(s: Session, x: Exchange)
    requires s.apiKey != [] && Trim(x.question) != []
    ensures var s1 := Run(s, [Type(x.question), Click(x.pageText, Replied(200, x.answer))]);
      && s1.history == s.history + [Turn(User, Trim(x.question)), Turn(Bot, x.answer)]
      && s1.apiKey == s.apiKey
      && s1 == Send(s.(draft := x.question), x.pageText, Replied(200, x.answer)).session
  {
    var es := [Type(x.question), Click(x.pageText, Replied(200, x.answer))];
    assert es[1..][1..] == [];
    assert Run(s, es) == Run(Apply(s.(draft := x.question), es[1]), []);
  }

  /** The first exchange of a script, followed by the rest. */
  lemma ScriptCons(s: Session, xs: seq<Exchange>)
    requires xs != [] && s.apiKey != [] && Trim(xs[0].question) != []
    ensures var s1 := Run(s, [Type(xs[0].question), Click(xs[0].pageText, Replied(200, xs[0].answer))]);
      && Run(s, Script(xs)) == Run(s1, Script(xs[1..]))
      && s1.history == s.history + [Turn(User, Trim(xs[0].question)), Turn(Bot, xs[0].answer)]
      && s1.apiKey == s.apiKey
  {
    var x := xs[0];
    var first := [Type(x.question), Click(x.pageText, Replied(200, x.answer))];
    assert Script(xs) == first + Script(xs[1..]);
    RunAppend(s, first, Script(xs[1..]));
    AnsweredExchange(s, x);
  }

  /** N answered questions add exactly 2N turns to the conversation: each
      question's user turn followed by its bot turn, in send order, after the
      unchanged earlier turns. */
  lemma {:induction false} AnsweredQuestionsAppendPairs(s: Session, xs: seq<Exchange>)
    requires s.apiKey != []
    requires AllAsked(xs)
    ensures Run(s, Script(xs)).history == s.history + Transcript(xs)
    ensures Run(s, Script(xs)).apiKey == s.apiKey
    decreases |xs|
  {
    if xs == [] {
      assert Run(s, Script(xs)) == s;
    } else {
      ScriptCons(s, xs);
      var s1 := Run(s, [Type(xs[0].question), Click(xs[0].pageText, Replied(200, xs[0].answer))]);
      var pair := [Turn(User, Trim(xs[0].question)), Turn(Bot, xs[0].answer)];
      AnsweredQuestionsAppendPairs(s1, xs[1..]);
      assert Transcript(xs) == pair + Transcript(xs[1..]);
      ConcatAssoc(s.history, pair, Transcript(xs[1..]));
    }
  }

  /** The wire history of a second question, after one answered question in
      a fresh conversation, holds exactly the first question and its answer. */
  lemma SecondRequestCarriesFirstExchange(s: Session, q1: string, a1: string, q2: string, page1: string, page2: string, outcome: FetchOutcome)
    requires s.history == [] && s.apiKey != []
    requires Trim(q1) != [] && Trim(q2) != []
    ensures var s1 := Send(s.(draft := q1), page1, Replied(200, a1)).session;
      var second := Send(s1.(draft := q2), page2, outcome).request;
      && second.Some?
      && second.value.history == [WireEntry("user", [Part(Trim(q1))]), WireEntry("model", [Part(a1)])]
  {
    var pair := [Turn(User, Trim(q1)), Turn(Bot, a1)];
    FirstExchangeRecorded(s, q1, a1, page1);
    var s1 := Send(s.(draft := q1), page1, Replied(200, a1)).session.(draft := q2);
    assert Send(s1, page2, outcome).request.value.history == WireHistory(pair);
    WireOfPair(Trim(q1), a1);
  }

  lemma FirstExchangeRecorded(s: Session, q1: string, a1: string, page1: string)
    requires s.history == [] && s.apiKey != [] && Trim(q1) != []
    ensures var s1 := Send(s.(draft := q1), page1, Replied(200, a1)).session;
      s1.history == [Turn(User, Trim(q1)), Turn(Bot, a1)] && s1.apiKey == s.apiKey
  {
    var pair := [Turn(User, Trim(q1)), Turn(Bot, a1)];
    assert [] + pair == pair;
  }

  lemma WireOfPair(q: string, a: string)
    ensures WireHistory([Turn(User, q), Turn(Bot, a)]) == [WireEntry("user", [Part(q)]), WireEntry("model", [Part(a)])]
  {
    var w := WireHistory([Turn(User, q), Turn(Bot, a)]);
    assert w[0] == WireEntry("user", [Part(q)]);
    assert w[1] == WireEntry("model", [Part(a)]);
  }

  /** A run of two spaces between visible characters becomes one space. */
  lemma CollapseExample(a: char, b: char, c: char)
    requires !IsSpace(a) && !IsSpace(b) && !IsSpace(c)
    ensures Collapse([a, b, ' ', ' ', c]) == [a, b, ' ', c]
  {
    var run := [' ', ' ', c];
    assert [a, b, ' ', ' ', c] == [a] + ([b] + run);
    CollapseSpaceRun(c);
    CollapseVisibleHead(b, run);
    CollapseVisibleHead(a, [b] + run);
  }

  lemma CollapseSpaceRun(c: char)
    requires !IsSpace(c)
    ensures Collapse([' ', ' ', c]) == [' ', c]
  {
    assert [' ', ' '] + [c] == [' ', ' ', c];
    CollapseRunThen([' ', ' '], [c]);
    assert Collapse([c]) == [c] by { assert [c][1..] == []; }
  }

  lemma CollapseVisibleHead(x: char, t: string)
    requires !IsSpace(x)
    ensures Collapse([x] + t) == [x] + Collapse(t)
  {
    assert ([x] + t)[1..] == t;
  }

  /** Truncation may cut just after a space, so the context can end in
      whitespace: with a limit of 3, "ab  c" (any three visible characters
      around a run of two spaces) becomes "ab ". */
  lemma TruncationCanEndOnSpace(a: char, b: char, c: char)
    requires !IsSpace(a) && !IsSpace(b) && !IsSpace(c)
    ensures Normalise([a, b, ' ', ' ', c], 3) == [a, b, ' ']
  {
    CollapseExample(a, b, c);
    var t := [a, b, ' ', c];
    TrimOfTrimmed(t);
    assert t[..3] == [a, b, ' '];
  }
}

=== FILE: wrappers.dfy ===
/** The optional value used for absent headers, absent error fields and the
    empty browser storage slot. */
module Wrappers {
  datatype Option<+T> = None | Some(value: T)
}
